=== FILE: README.md ===
# Reflect: a type-erased binder over caller-owned variables

This Dafny project models the `Reflect` facade of `include/Reflect.h`. A
`Reflect` holds a `shared_ptr` to one per-kind adapter. The adapter holds a raw,
non-owning pointer to a caller's variable of one fixed kind: `uint8_t` …
`uint64_t`, `int8_t` … `int64_t`, `float`, `double`, `long`, `bool`, `char` or
`std::string`. Every facade operation is forwarded to that adapter: assignment
through the pointer, rebinding the pointer, reading back, rendering as text,
equality against text, and a `<` for ordered containers.

The aliasing that the C++ gets from raw pointers and `shared_ptr` is made
explicit:

- `Adapters.Store` maps addresses to tagged values (`Kinds.Value`). It holds
  every caller-owned variable.
- `Facade.World` pairs the store with an adapter table, which maps adapter ids
  to `(kind, address)`, and the next free id.
- `Facade.Reflect` is an optional adapter id. Copying a facade copies the id,
  so copies share one adapter, just as copies of a `shared_ptr` share one object.

Every operation is a pure transition function on a `World`.

Modules, leaf first:

- `Wrappers`: `Option`.
- `Decimal`: the decimal text `std::to_string` gives integers, and an
  independent parser. The parser is proved to be its exact inverse.
- `Kinds`: the kind enum, the value range of each kind, tagged values, and the
  fallback order on kinds (`type_info::before`).
- `Adapters`: the `TypeBase` contract (`string`, `set`, `bind`, `get`, `type`,
  `operator<`) and the per-kind adapters.
- `Facade`: the constructors, `operator=(T&)`, `operator=(T*)`, `operator T()`,
  `operator std::string`, `type()`, `operator==` and `operator<`. It also has
  `ExternalWrite`, which models the caller assigning to its own variable.
- `Behaviour`: the properties that relate several operations.
- `Ordering`: `operator<` is the lexicographic order on (kind rank, value), and
  so it is a strict weak order.
- `Scenarios`: the repository's usage scenarios, stated as lemmas about
  concrete variables, plus one example of promoted `bool`/`char` text.

Platform assumptions: `long` is 64 bits wide, `char` is a signed 8-bit type,
and `bool` is stored as 0 or 1. `long` is its own kind, as in the builder's
list; that assumes a platform where `long` and `int64_t` are distinct types,
such as LP64 macOS.

Three behaviours of the code differ from what one might expect of such a
facade; the model follows the code:

- Rebinding (`operator=(T*)`) re-points the *shared* adapter. Every copy of the
  facade follows the rebind; no copy stays on the old variable
  (`Behaviour.CopySharesAdapter`).
- `Reflect_string` does not override `operator<`. It inherits `TypeBase`'s
  version, which returns false. So two string facades are never ordered, in
  either direction; the comparison is not lexicographic.
- A default-constructed facade holds a null handle, not a null-object adapter.
  Only the string conversion checks for null. `type()`, `==`, `<`, `<<`,
  `operator=(T&)`, `operator=(T*)` and `operator T()` all dereference the
  handle, so here they require a bound facade. An empty facade therefore
  cannot become bound by a rebind; only a binding constructor yields a bound
  facade.

## Model

| member | source | states |
|---|---|---|
| Decimal.NatToString | include/Reflect.h:26 | The decimal text of a natural number is a non-empty digit string with no leading zero; it starts with '0' only for zero |
| Decimal.IntToString | include/Reflect.h:26 | The text `std::to_string` gives an integer is non-empty and starts with a minus sign exactly when the integer is negative; `ParseIntIff` pins the rest |
| Decimal.ParseIntIff | include/Reflect.h:26 | The integer text `std::to_string` produces parses back to that integer, and every text that parses to n is n's text |
| Decimal.IntToStringInjective | include/Reflect.h:26 | Two integers have the same decimal text exactly when they are equal |
| Kinds.BeforeIsStrictTotal | include/Reflect.h:182 | The fallback order on kind identity tokens is irreflexive, asymmetric and transitive, and it orders any two distinct kinds |
| Adapters.Load | include/Reflect.h:29 | Dereferencing an adapter's pointer yields a well-formed value of the adapter's own kind |
| Adapters.Render | include/Reflect.h:26 | An integral adapter's text parses back to the bound number; the string adapter's text is the bound string itself |
| Adapters.Write | include/Reflect.h:27 | `set` stores the value at the bound address, changes no other variable, and keeps the adapter attached |
| Adapters.Bind | include/Reflect.h:28 | `bind` keeps the adapter's kind and points it at the new address; against any store holding a value of that kind there, the adapter is attached and reads that value |
| Adapters.Precedes | include/Reflect.h:31 | For two adapters of one integral kind, `<` holds exactly when the first bound value is below the second; for the string adapter it is always false |
| Facade.Empty | include/Reflect.h:75 | The default-constructed facade is bound to no adapter in any world and converts to "" in every valid world |
| Facade.Copy | include/Reflect.h:80 | In every world the copy is bound exactly when the original is, and to the same adapter |
| Facade.Move | include/Reflect.h:85 | In every world the new facade is bound exactly when the source was, to the same adapter, and the source is left bound to nothing |
| Facade.Construct | include/Reflect.h:35 | Binding to a variable creates a fresh adapter of the variable's kind pointing at it; the store and all existing adapters are unchanged |
| Facade.TypeOf | include/Reflect.h:151 | `type()` is the kind of the variable the facade currently observes |
| Facade.Read | include/Reflect.h:36 | Converting to the bound kind yields a well-formed value of that kind |
| Facade.Assign | include/Reflect.h:117-122 | After `r = x`, the bound variable holds x and reads back as x; every other variable and the adapter table are unchanged |
| Facade.Rebind | include/Reflect.h:127-131 | After `r = &y`, the adapter points at y with the same kind, no variable changes, no other adapter changes, no adapter is created, and the result is y's value |
| Facade.ExternalWrite | src/test.cpp:26-29 | The caller writing its own variable changes that variable only, leaves the adapters and the adapter counter alone and keeps the world valid |
| Facade.ToText | include/Reflect.h:136-146 | An empty facade converts to ""; a string facade converts to the bound string; an integral facade converts to text that parses back to the bound number |
| Facade.EqualsText | include/Reflect.h:165-168 | `r == s` holds for a string facade exactly when s is the bound string, and for an integral facade exactly when s is the canonical decimal text of the bound number |
| Facade.Less | include/Reflect.h:173-183 | Different kinds compare by the kinds' fallback order; one integral kind compares the bound values with `<`; two string facades are never ordered |
| Behaviour.AssignSeenByAliases | include/Reflect.h:117-122 | After `r = x`, every facade observing r's variable (r, its copies, other facades on the same variable) reads x |
| Behaviour.AssignLeavesOthers | include/Reflect.h:27 | After `r = x`, a facade bound to any other variable reads what it read before |
| Behaviour.ExternalWriteVisible | src/test.cpp:26-29 | After the caller stores v in r's variable, r reads v for every kind and, for every non-floating kind, renders v's text, with no rebind |
| Behaviour.RebindCopiesNothing | include/Reflect.h:127-131 | Rebinding leaves the store unchanged and r then reads y; a later write lands in y and leaves the old variable alone |
| Behaviour.RebindInPlaceIsIdentity | include/Reflect.h:127-131 | Rebinding a facade to the variable it already observes leaves the whole world, store, adapters and counter, as it was |
| Behaviour.CopySharesAdapter | include/Reflect.h:80 | A copy shares the adapter: a write through the copy is read through the original, and a rebind through either copy moves both |
| Behaviour.IndependentFacadesDiverge | include/Reflect.h:35 | Two facades constructed separately on one variable hold distinct adapters, so rebinding one leaves the other on the old variable |
| Behaviour.MoveTransfersAdapter | include/Reflect.h:85 | For every kind, the move-constructed facade holds the source's adapter, and the source is left empty and renders ""; a renderable facade's text moves with it |
| Behaviour.EmptyRendersEmpty | include/Reflect.h:75 | A default-constructed facade converts to the empty string |
| Behaviour.IntegralText | include/Reflect.h:26 | A bound integral facade (including `bool` and `char`) renders as the decimal text of its value |
| Behaviour.EqualsTextIffText | include/Reflect.h:165-168 | `r == s` holds exactly when s is the facade's text, so each facade equals only one text |
| Behaviour.TextIdentifiesValue | include/Reflect.h:26 | Two integral facades of one kind render the same text exactly when they hold the same value |
| Behaviour.TypeIdentity | include/Reflect.h:30 | Facades on two variables report equal `type()` tokens exactly when the variables are of one kind; assignment and rebinding keep the token |
| Ordering.LessIsLexicographic | include/Reflect.h:173-183 | `operator<` coincides with the lexicographic order on (kind rank, value). Only kinds whose adapter compares values contribute the value |
| Ordering.LessIrreflexive | include/Reflect.h:173-183 | No non-floating facade is below itself (a floating facade compared with itself is outside the model) |
| Ordering.LessAsymmetric | include/Reflect.h:173-183 | Of two facades `operator<` can decide, including facades of different floating kinds, at most one is below the other |
| Ordering.LessTransitive | include/Reflect.h:173-183 | `operator<` is transitive over any three pairwise decidable facades of mixed kinds; floating kinds are included, provided no two of the three share one floating kind |
| Ordering.EquivalentTransitive | include/Reflect.h:173-183 | Two pairwise decidable facades are unordered exactly when their sort keys coincide, and being unordered is transitive, so `<` is a strict weak order on such facades |
| Scenarios.Uint8Scenario | src/test.cpp:7-30 | A `uint8_t` 123 renders "123"; `r = uint8_tTest2` (a variable holding 234) writes the bound variable and renders "234"; the caller setting 111 renders "111" |
| Scenarios.StringScenario | src/test.cpp:32-45 | A string facade renders "value", equals "value" only, and assignment copies "valueChanged" into the bound string |
| Scenarios.TypeAndOrderScenario | src/test.cpp:86-105 | A `uint8_t` facade reports the `uint8_t` token, not the `uint16_t` one, and facades on 1 and 100 order as 1 < 100 |
| Scenarios.PromotedKindsScenario | include/Reflect.h:26 | `bool` true renders "1" and `char` 'A' renders "65" |

## Left out

- Facade.ToText: requires a non-floating kind. `std::to_string` rendering of `float` and `double` is platform floating-point formatting, and this model does not include it. Floating values are carried only as raw bit patterns.
- Facade.EqualsText: requires a non-floating kind, for the same reason.
- Facade.Less: requires the two facades not to be of one floating kind. Float `<`, including NaN, is not modelled. Facades of different kinds, floating or not, are covered.
- Adapters.Render: requires a non-floating kind, for the same reason as Facade.ToText.
- Adapters.Precedes: requires a non-floating kind, for the same reason as Facade.Less.
- The concrete `type_info::before` order is implementation-defined. `Kinds.Rank` stands in for it. It is an arbitrary fixed injective ranking (declaration order), and no property depends on which ranking it is.
- Mismatched-kind assignment, rebinding and conversion are `reinterpret_cast` undefined behaviour (include/Reflect.h:27, 121, 130). They are preconditions: the caller's kind must equal the adapter's kind.
- Facades built on a null pointer are not modelled. Constructing on a null pointer only stores the pointer (include/Reflect.h:24, 35). `type()` and the cross-kind fallback of `<` never dereference it (include/Reflect.h:30, 151, 182), and a later `r = &x` makes the facade live (include/Reflect.h:127-131). `type()`, cross-kind `<` and rebinding on such a facade are left out, because `Facade.Construct` and `Facade.Rebind` require a live address and every adapter must point at a live variable. Only rendering, reading, writing or same-kind comparison through the null pointer would be undefined behaviour.
- Dangling bound variables are not modelled. Rendering, `==`, reading, writing and same-kind `<` through a facade whose variable has gone out of scope are undefined behaviour (include/Reflect.h:26, 27, 31, 36). `type()`, cross-kind `<` and rebinding on such a facade are well-defined (include/Reflect.h:28, 30, 151, 182), but they are not modelled either, because variables are never removed from the store and every adapter points at a live variable. The scope test (src/test.cpp:70-84) expects an exception that nothing in the header throws.
- `type()`, `==`, `<`, stream insertion, `operator=(T&)` (include/Reflect.h:120-121), `operator=(T*)` (include/Reflect.h:129-130) and `operator T()` (include/Reflect.h:36) all dereference a null handle on a default-constructed facade. So `Facade.TypeOf`, `Facade.EqualsText`, `Facade.Less`, `Facade.Assign`, `Facade.Rebind` and `Facade.Read` require a bound facade. In particular an empty facade cannot become bound by a rebind; only a binding constructor gives a bound facade.
- Stream insertion (`operator<<`) writes the same text as the string conversion, and it is not modelled separately.
- The `shared_ptr` reference count and destruction are not modelled: adapters stay in the table once created.
- The adapter classes' own default, copy and move constructors are not modelled. The facade never calls them, and the copy constructor leaves the pointer uninitialised.
- Assigning one facade to another is not modelled. Because the class declares a move constructor (include/Reflect.h:85), its copy assignment is implicitly deleted, and it declares no move assignment, so `r1 = std::move(r2)` does not compile. But `r1 = r2` with a non-const lvalue `r2` does compile: it selects the template `operator=(T&)` with `T = Reflect` (include/Reflect.h:117), since `Reflect&` binds better than `const Reflect&`. That template passes `&r2` to `set`, which reinterprets the facade object's own bytes as the adapter's kind and copies them into the bound variable (include/Reflect.h:27). This is a mismatched-kind write, so it falls under the mismatched-kind exclusion above.
- `operator=(T&)` and `operator=(T*)` return a reference to the bound variable. The model returns the value that reference designates at that moment.
- Where `long` and `int64_t` are one type, as on LP64 Linux with glibc, the builder list declares `Reflect(long*)` and `operator long()` twice (include/Reflect.h:98, 102), and the header does not compile. The separate `Long` kind assumes a platform where the two types differ, such as LP64 macOS.

=== FILE: adapters.dfy ===
/**
  The adapter layer: the `TypeBase` capability contract and the per-kind
  adapters that implement it (`Reflect_uint8_t` … `Reflect_char`, generated by
  the builder macro, and the hand-written `Reflect_string`).

  The caller's variables are an explicit store keyed by location; an adapter is
  the kind it was generated for together with the location its raw pointer holds.
  The store is the one place values live, so reading, writing and rebinding
  through an adapter are plain functions over it.
 */
module Adapters {
  import opened Wrappers
  import opened Decimal
  import opened Kinds

  /** The address of a caller-owned variable. */
  type Loc = nat

  /** Every caller-owned variable, by address. */
  type Store = map<Loc, Value>

  /** A per-kind adapter: the kind it was generated for and where its pointer points. */
  datatype Adapter = Adapter(kind: Kind, bound: Loc)

  /** The adapter's pointer designates a live variable of the adapter's own kind. */
  predicate Attached(a: Adapter, store: Store) {
    a.bound in store && KindOf(store[a.bound]) == a.kind && WellFormed(store[a.bound])
  }

  /** `get()` followed by a dereference at the adapter's kind. */
  function Load(a: Adapter, store: Store): (v: Value)
    requires Attached(a, store)
    ensures KindOf(v) == a.kind && WellFormed(v)
  {
    store[a.bound]
  }

  /**
    `string()`: the builder's adapters apply `std::to_string` to the bound value,
    which renders every integral kind in decimal; `Reflect_string` returns the
    bound string itself. Floating kinds are not rendered by this model.
   */
  function Render(a: Adapter, store: Store): (s: string)
    requires Attached(a, store) && !IsFloating(a.kind)
    ensures a.kind == String ==> Load(a, store) == Text(s)
    ensures IsIntegral(a.kind) ==> Load(a, store).Integral? && ParseInt(s) == Some(Load(a, store).n)
  {
    var v := store[a.bound];
    if v.Text? then v.s
    else
      ParseIntIff(IntToString(v.n), v.n);
      IntToString(v.n)
  }

  /** `set(x)`: copies `x` into the bound variable and into nothing else. */
  function Write(a: Adapter, store: Store, x: Value): (store': Store)
    requires Attached(a, store) && KindOf(x) == a.kind && WellFormed(x)
    ensures store'.Keys == store.Keys
    ensures Attached(a, store') && Load(a, store') == x
    ensures forall l :: l in store && l != a.bound ==> store'[l] == store[l]
  {
    store[a.bound := x]
  }

  /** `bind(x)`: the same adapter, now pointing at `loc`; no value moves. */
  function Bind(a: Adapter, loc: Loc): (a': Adapter)
    ensures a'.kind == a.kind && a'.bound == loc
    ensures forall store: Store :: loc in store && KindOf(store[loc]) == a.kind && WellFormed(store[loc]) ==>
      Attached(a', store) && Load(a', store) == store[loc]
  {
    a.(bound := loc)
  }

  /**
    `operator<(const TypeBase&)`, which the facade calls only for two adapters of
    one kind: the builder's adapters compare the bound values with the native
    `<`; `Reflect_string` does not override it, so it inherits the base
    version, which answers false.
   */
  function Precedes(a: Adapter, b: Adapter, store: Store): (lt: bool)
    requires Attached(a, store) && Attached(b, store)
    requires a.kind == b.kind && !IsFloating(a.kind)
    ensures a.kind == String ==> !lt
    ensures IsIntegral(a.kind) ==> (lt <==> Load(a, store).n < Load(b, store).n)
  {
    if a.kind == String then false else store[a.bound].n < store[b.bound].n
  }
}

=== FILE: behaviour.dfy ===
/**
  What the facade promises across several operations: writes reach the
  caller's variable and everyone observing it, the caller's own writes are seen
  through the facade, rebinding moves the observed variable without copying,
  copies share one adapter, a move empties its source, and the text and kind
  token identify the bound value and kind.
 */
module Behaviour {
  import opened Decimal
  import opened Kinds
  import opened Adapters
  import opened Facade

  /**
    Write-through: after `r = x`, every facade observing r's variable, r itself,
    its copies and independently constructed facades on the same variable,
    reads back `x`.
   */
  lemma AssignSeenByAliases(w: World, r: Reflect, c: Reflect, x: Value)
    requires Valid(w) && IsBound(w, r) && IsBound(w, c)
    requires Location(w, c) == Location(w, r)
    requires WellFormed(x) && KindOf(x) == TypeOf(w, r)
    ensures IsBound(Assign(w, r, x).0, c) && TypeOf(Assign(w, r, x).0, c) == KindOf(x)
    ensures Read(Assign(w, r, x).0, c, KindOf(x)) == x
  {
  }

  /**
    A facade never observes a write to another variable: `r = x` leaves what
    every facade bound elsewhere reads unchanged.
   */
  lemma AssignLeavesOthers(w: World, r: Reflect, c: Reflect, x: Value)
    requires Valid(w) && IsBound(w, r) && IsBound(w, c)
    requires Location(w, c) != Location(w, r)
    requires WellFormed(x) && KindOf(x) == TypeOf(w, r)
    ensures IsBound(Assign(w, r, x).0, c) && TypeOf(Assign(w, r, x).0, c) == TypeOf(w, c)
    ensures Read(Assign(w, r, x).0, c, TypeOf(w, c)) == Read(w, c, TypeOf(w, c))
  {
  }

  /**
    External mutation is visible: after the caller stores `v` in the variable r
    is bound to, r reads `v`, whatever its kind, and, for every kind but the
    floating ones, renders `v`'s text, with no rebind.
   */
  lemma ExternalWriteVisible(w: World, r: Reflect, v: Value)
    requires Valid(w) && IsBound(w, r)
    requires WellFormed(v) && KindOf(v) == TypeOf(w, r)
    ensures var w' := ExternalWrite(w, Location(w, r), v);
      && IsBound(w', r) && TypeOf(w', r) == KindOf(v) && Read(w', r, KindOf(v)) == v
      && (!IsFloating(KindOf(v)) ==> ToText(w', r) == (if v.Text? then v.s else IntToString(v.n)))
  {
  }

  /**
    Rebinding copies nothing: `r = &y` leaves both variables as they were, r
    then reads y, and a later `r = x` lands in y and leaves the old variable alone.
   */
  lemma RebindCopiesNothing(w: World, r: Reflect, y: Loc, x: Value)
    requires Valid(w) && IsBound(w, r)
    requires y in w.store && KindOf(w.store[y]) == TypeOf(w, r)
    requires WellFormed(x) && KindOf(x) == TypeOf(w, r)
    ensures var w1 := Rebind(w, r, y).0;
      && w1.store == w.store
      && Read(w1, r, TypeOf(w, r)) == w.store[y]
      && Assign(w1, r, x).0.store[y] == x
      && (Location(w, r) != y ==> Assign(w1, r, x).0.store[Location(w, r)] == w.store[Location(w, r)])
  {
  }

  /** Rebinding a facade to the variable it already observes changes nothing. */
  lemma RebindInPlaceIsIdentity(w: World, r: Reflect)
    requires Valid(w) && IsBound(w, r)
    ensures Rebind(w, r, Location(w, r)).0 == w
  {
  }

  /**
    Copies share the adapter: a copy reads what a write through the original
    stored, and a rebind through either copy moves both. (Rebinding one copy
    therefore never leaves the other behind.)
   */
  lemma CopySharesAdapter(w: World, r: Reflect, x: Value, y: Loc)
    requires Valid(w) && IsBound(w, r)
    requires WellFormed(x) && KindOf(x) == TypeOf(w, r)
    requires y in w.store && KindOf(w.store[y]) == TypeOf(w, r)
    ensures var c := Copy(r);
      && IsBound(w, c) && AdapterOf(w, c) == AdapterOf(w, r)
      && Read(Assign(w, c, x).0, r, KindOf(x)) == x
      && Location(Rebind(w, c, y).0, r) == y
      && Location(Rebind(w, r, y).0, c) == y
  {
  }

  /**
    Moving hands the adapter to the new facade, whatever its kind, and leaves
    the source empty; where the facade can be rendered, the text moves with it.
   */
  lemma MoveTransfersAdapter(w: World, r: Reflect)
    requires Valid(w) && Holds(w, r)
    ensures var (d, s) := Move(r);
      && (IsBound(w, d) <==> IsBound(w, r))
      && (IsBound(w, r) ==> AdapterOf(w, d) == AdapterOf(w, r))
      && (Renderable(w, r) ==> Renderable(w, d) && ToText(w, d) == ToText(w, r))
      && s.handle.None? && Renderable(w, s) && ToText(w, s) == ""
  {
  }

  /** A default-constructed facade renders as the empty string. */
  lemma EmptyRendersEmpty(w: World)
    requires Valid(w)
    ensures Renderable(w, Empty()) && ToText(w, Empty()) == ""
  {
  }

  /** The text of a bound integral facade is the decimal text of its value. */
  lemma IntegralText(w: World, r: Reflect)
    requires Valid(w) && IsBound(w, r) && IsIntegral(TypeOf(w, r))
    ensures Read(w, r, TypeOf(w, r)).Integral?
    ensures ToText(w, r) == IntToString(Read(w, r, TypeOf(w, r)).n)
  {
  }

  /**
    Equality against text holds exactly when the text is the facade's own text;
    so a facade equals one text only.
   */
  lemma EqualsTextIffText(w: World, r: Reflect, s: string, t: string)
    requires Valid(w) && IsBound(w, r) && !IsFloating(TypeOf(w, r))
    ensures EqualsText(w, r, s) <==> ToText(w, r) == s
    ensures EqualsText(w, r, s) && EqualsText(w, r, t) ==> s == t
  {
  }

  /**
    Two integral facades of one kind render the same text exactly when they
    hold the same value.
   */
  lemma TextIdentifiesValue(w: World, a: Reflect, b: Reflect)
    requires Valid(w) && IsBound(w, a) && IsBound(w, b)
    requires TypeOf(w, a) == TypeOf(w, b) && IsIntegral(TypeOf(w, a))
    ensures ToText(w, a) == ToText(w, b) <==> Read(w, a, TypeOf(w, a)) == Read(w, b, TypeOf(w, b))
  {
  }

  /**
    Kind identity: facades constructed on two variables report equal `type()`
    tokens exactly when the variables are of one kind, and a token survives
    assignment and rebinding.
   */
  lemma TypeIdentity(w: World, l1: Loc, l2: Loc, x: Value)
    requires Valid(w) && l1 in w.store && l2 in w.store
    requires WellFormed(x) && KindOf(x) == KindOf(w.store[l1])
    ensures var (w1, a) := Construct(w, l1);
      var (w2, b) := Construct(w1, l2);
      && IsBound(w2, a) && IsBound(w2, b)
      && (TypeOf(w2, a) == TypeOf(w2, b) <==> KindOf(w.store[l1]) == KindOf(w.store[l2]))
      && TypeOf(Assign(w2, a, x).0, a) == KindOf(w.store[l1])
      && (KindOf(w.store[l2]) == KindOf(w.store[l1]) ==> TypeOf(Rebind(w2, a, l2).0, a) == KindOf(w.store[l1]))
  {
  }

  /**
    Two facades constructed separately on one variable hold two adapters, so
    rebinding one leaves the other observing the old variable; only copies
    follow a rebind.
   */
  lemma IndependentFacadesDiverge(w: World, l: Loc, y: Loc)
    requires Valid(w) && l in w.store && y in w.store
    requires KindOf(w.store[y]) == KindOf(w.store[l])
    ensures var (w1, a) := Construct(w, l);
      var (w2, b) := Construct(w1, l);
      && a != b && Location(w2, a) == l && Location(w2, b) == l
      && Location(Rebind(w2, a, y).0, a) == y
      && Location(Rebind(w2, a, y).0, b) == l
  {
  }
}

=== FILE: decimal.dfy ===
/**
  Decimal text of integers, as `std::to_string` produces it for every integral
  argument (the narrow kinds, `bool` and `char` are promoted to `int` first, so
  they render as their numeric value too).

  `ParseInt` is an independent reader of canonical decimal text; the two lemmas
  at the end show that it is exactly the inverse of `IntToString`, which is what
  makes "the facade's text equals s" a statement about the bound value.
 */
module Decimal {
  import opened Wrappers

  predicate IsDigit(c: char) {
    '0' <= c <= '9'
  }

  predicate AllDigits(s: string) {
    forall i :: 0 <= i < |s| ==> IsDigit(s[i])
  }

  /** A non-empty digit string without a superfluous leading zero. */
  predicate Canonical(s: string) {
    |s| >= 1 && AllDigits(s) && (s[0] == '0' ==> |s| == 1)
  }

  function DigitChar(d: nat): (c: char)
    requires d < 10
    ensures IsDigit(c)
  {
    ('0' as int + d) as char
  }

  function DigitValue(c: char): (d: nat)
    requires IsDigit(c)
    ensures d < 10
    ensures DigitChar(d) == c
  {
    c as int - '0' as int
  }

  /** Decimal digits of a natural number, most significant first. */
  function NatToString(n: nat): (s: string)
    ensures Canonical(s)
    ensures s[0] == '0' <==> n == 0
    decreases n
  {
    if n < 10 then [DigitChar(n)] else NatToString(n / 10) + [DigitChar(n % 10)]
  }

  /** Decimal text of an integer: a minus sign before the magnitude when negative. */
  function IntToString(n: int): (s: string)
    ensures |s| >= 1
    ensures s[0] == '-' <==> n < 0
  {
    if n < 0 then "-" + NatToString(-n) else NatToString(n)
  }

  /** The value of a digit string, read from the least significant end. */
  function ParseDigits(s: string): (n: nat)
    requires AllDigits(s)
    decreases |s|
  {
    if |s| == 0 then 0 else 10 * ParseDigits(s[..|s| - 1]) + DigitValue(s[|s| - 1])
  }

  /** Reads canonical decimal text; anything else (empty text, stray characters,
      leading zeros, "-0") is rejected. */
  function ParseInt(s: string): (r: Option<int>)
  {
    if |s| >= 2 && s[0] == '-' && Canonical(s[1..]) && s[1] != '0' then Some(-(ParseDigits(s[1..]) as int))
    else if Canonical(s) then Some(ParseDigits(s) as int)
    else None
  }

  lemma {:induction false} ParseDigitsPositive(s: string)
    requires AllDigits(s) && |s| >= 1 && s[0] != '0'
    ensures ParseDigits(s) >= 1
    decreases |s|
  {
    if |s| > 1 {
      var p := s[..|s| - 1];
      assert p[0] == s[0];
      ParseDigitsPositive(p);
    }
  }

  lemma {:induction false} ParseNatToString(n: nat)
    ensures ParseDigits(NatToString(n)) == n
    decreases n
  {
    if n >= 10 {
      var s := NatToString(n);
      assert s[..|s| - 1] == NatToString(n / 10);
      ParseNatToString(n / 10);
    }
  }

  lemma {:induction false} NatToStringOfParse(s: string)
    requires Canonical(s)
    ensures NatToString(ParseDigits(s)) == s
    decreases |s|
  {
    if |s| > 1 {
      var p := s[..|s| - 1];
      var d := DigitValue(s[|s| - 1]);
      assert p[0] == s[0];
      ParseDigitsPositive(p);
      NatToStringOfParse(p);
      var n := ParseDigits(s);
      assert n == 10 * ParseDigits(p) + d;
      assert n / 10 == ParseDigits(p) && n % 10 == d;
      assert s == p + [s[|s| - 1]];
    }
  }

  /** `ParseInt` and `IntToString` are inverse: text parses to n exactly when it is n's text. */
  lemma {:induction false} ParseIntIff(s: string, n: int)
    ensures ParseInt(s) == Some(n) <==> IntToString(n) == s
  {
    if IntToString(n) == s {
      if n < 0 {
        var m := NatToString(-n);
        assert s[1..] == m;
        ParseNatToString(-n);
      } else {
        ParseNatToString(n);
      }
    }
    if ParseInt(s) == Some(n) {
      if |s| >= 2 && s[0] == '-' && Canonical(s[1..]) && s[1] != '0' {
        ParseDigitsPositive(s[1..]);
        NatToStringOfParse(s[1..]);
        assert s == "-" + s[1..];
      } else {
        NatToStringOfParse(s);
      }
    }
  }

  /** Distinct integers never share a text. */
  lemma IntToStringInjective(a: int, b: int)
    ensures IntToString(a) == IntToString(b) <==> a == b
  {
    ParseIntIff(IntToString(a), a);
    ParseIntIff(IntToString(a), b);
  }
}

=== FILE: facade.dfy ===
/**
  The `Reflect` facade: a value that holds a shared handle on one adapter (or
  nothing) and forwards every operation to it.

  A `World` gathers everything the facade can observe: the caller's variables,
  the table of live adapters by id, and the next unused id. A facade is just an
  optional adapter id, so two copies of a facade share their adapter exactly as
  two `shared_ptr`s to one object do, and a change made to the adapter through
  one copy is seen through every other.
 */
module Facade {
  import opened Wrappers
  import opened Decimal
  import opened Kinds
  import opened Adapters

  type AdapterId = nat

  /** A facade: a shared handle on one adapter of the table, or none at all. */
  datatype Reflect = Reflect(handle: Option<AdapterId>)

  /** The caller's variables, the live adapters, and the next id to hand out. */
  datatype World = World(store: Store, adapters: map<AdapterId, Adapter>, next: AdapterId)

  /**
    Every variable holds a value of its kind, every adapter points at a live
    variable of the adapter's kind, and no adapter id has reached `next`.
   */
  predicate Valid(w: World) {
    && (forall l :: l in w.store ==> WellFormed(w.store[l]))
    && (forall id :: id in w.adapters ==> id < w.next && Attached(w.adapters[id], w.store))
  }

  /** The handle a facade holds, if any, names a live adapter. */
  predicate Holds(w: World, r: Reflect) {
    r.handle.Some? ==> r.handle.value in w.adapters
  }

  /** The facade holds an adapter. */
  predicate IsBound(w: World, r: Reflect) {
    r.handle.Some? && r.handle.value in w.adapters
  }

  function AdapterOf(w: World, r: Reflect): Adapter
    requires IsBound(w, r)
  {
    w.adapters[r.handle.value]
  }

  /** The address the facade currently reads and writes. */
  function Location(w: World, r: Reflect): Loc
    requires IsBound(w, r)
  {
    AdapterOf(w, r).bound
  }

  /**
    The default constructor: a facade with no adapter, which in every world
    observes nothing and converts to the empty string.
   */
  function Empty(): (r: Reflect)
    ensures forall w: World :: !IsBound(w, r)
    ensures forall w: World :: Valid(w) ==> Renderable(w, r) && ToText(w, r) == ""
  {
    Reflect(None)
  }

  /**
    The binding constructors `Reflect(T*)` and `Reflect(std::string&)`: a fresh
    adapter of the variable's kind, pointing at it, held by a new facade.
   */
  function Construct(w: World, loc: Loc): (res: (World, Reflect))
    requires Valid(w) && loc in w.store
    ensures Valid(res.0) && IsBound(res.0, res.1)
    ensures AdapterOf(res.0, res.1).kind == KindOf(w.store[loc])
    ensures Location(res.0, res.1) == loc
    ensures res.1.handle.value !in w.adapters
    ensures res.0.store == w.store
    ensures forall id :: id in w.adapters ==> id in res.0.adapters && res.0.adapters[id] == w.adapters[id]
  {
    var id := w.next;
    var w' := World(w.store, w.adapters[id := Adapter(KindOf(w.store[loc]), loc)], w.next + 1);
    (w', Reflect(Some(id)))
  }

  /**
    The copy constructor: in every world the copy is bound exactly when the
    original is, and to the very same adapter.
   */
  function Copy(r: Reflect): (c: Reflect)
    ensures forall w: World :: IsBound(w, c) <==> IsBound(w, r)
    ensures forall w: World :: IsBound(w, r) ==> AdapterOf(w, c) == AdapterOf(w, r)
  {
    r
  }

  /**
    The move constructor: the new facade takes the handle and the source is
    left holding nothing (the pair is the new facade, then the source after).
   */
  function Move(r: Reflect): (res: (Reflect, Reflect))
    ensures forall w: World :: IsBound(w, res.0) <==> IsBound(w, r)
    ensures forall w: World :: IsBound(w, r) ==> AdapterOf(w, res.0) == AdapterOf(w, r)
    ensures forall w: World :: !IsBound(w, res.1)
  {
    (Reflect(r.handle), Reflect(None))
  }

  /** `type()`: the identity token of the bound adapter's kind. */
  function TypeOf(w: World, r: Reflect): (k: Kind)
    requires Valid(w) && IsBound(w, r)
    ensures KindOf(w.store[Location(w, r)]) == k
  {
    AdapterOf(w, r).kind
  }

  /** `operator T()`: reads the bound variable at the caller's kind `k`. */
  function Read(w: World, r: Reflect, k: Kind): (v: Value)
    requires Valid(w) && IsBound(w, r) && k == TypeOf(w, r)
    ensures KindOf(v) == k && WellFormed(v)
  {
    Load(AdapterOf(w, r), w.store)
  }

  /**
    `operator=(T&)`: copies `x` through the adapter into the bound variable and
    returns what the variable then holds.
   */
  function Assign(w: World, r: Reflect, x: Value): (res: (World, Value))
    requires Valid(w) && IsBound(w, r)
    requires WellFormed(x) && KindOf(x) == TypeOf(w, r)
    ensures Valid(res.0) && IsBound(res.0, r) && TypeOf(res.0, r) == TypeOf(w, r)
    ensures res.1 == x
    ensures Read(res.0, r, KindOf(x)) == x
    ensures res.0.store.Keys == w.store.Keys
    ensures res.0.store[Location(w, r)] == x
    ensures forall l :: l in w.store && l != Location(w, r) ==> res.0.store[l] == w.store[l]
    ensures res.0.adapters == w.adapters && res.0.next == w.next
  {
    var a := AdapterOf(w, r);
    var w' := w.(store := Write(a, w.store, x));
    (w', Load(a, w'.store))
  }

  /**
    `operator=(T*)`: re-points the shared adapter at `loc` and returns what that
    variable holds. No value is copied, and every facade sharing the adapter
    follows the rebind.
   */
  function Rebind(w: World, r: Reflect, loc: Loc): (res: (World, Value))
    requires Valid(w) && IsBound(w, r)
    requires loc in w.store && KindOf(w.store[loc]) == TypeOf(w, r)
    ensures Valid(res.0) && IsBound(res.0, r)
    ensures res.0.store == w.store && res.0.next == w.next
    ensures Location(res.0, r) == loc && TypeOf(res.0, r) == TypeOf(w, r)
    ensures res.1 == w.store[loc]
    ensures res.0.adapters.Keys == w.adapters.Keys
    ensures forall id :: id in w.adapters && id != r.handle.value ==> res.0.adapters[id] == w.adapters[id]
  {
    var id := r.handle.value;
    var w' := w.(adapters := w.adapters[id := Bind(w.adapters[id], loc)]);
    (w', Load(w'.adapters[id], w'.store))
  }

  /**
    The caller assigning to its own variable directly, outside the facade; the
    variable keeps its kind.
   */
  function ExternalWrite(w: World, loc: Loc, v: Value): (w': World)
    requires Valid(w) && loc in w.store
    requires WellFormed(v) && KindOf(v) == KindOf(w.store[loc])
    ensures Valid(w')
    ensures w'.store.Keys == w.store.Keys && w'.store[loc] == v
    ensures forall l :: l in w.store && l != loc ==> w'.store[l] == w.store[l]
    ensures w'.adapters == w.adapters && w'.next == w.next
  {
    w.(store := w.store[loc := v])
  }

  /** A facade this model can render: empty, or bound to a non-floating kind. */
  predicate Renderable(w: World, r: Reflect) {
    Holds(w, r) && (r.handle.Some? ==> !IsFloating(AdapterOf(w, r).kind))
  }

  /**
    `operator std::string`: the adapter's text, or the empty string when the
    facade holds no adapter.
   */
  function ToText(w: World, r: Reflect): (s: string)
    requires Valid(w) && Renderable(w, r)
    ensures r.handle.None? ==> s == ""
    ensures IsBound(w, r) && TypeOf(w, r) == String ==> w.store[Location(w, r)] == Text(s)
    ensures IsBound(w, r) && IsIntegral(TypeOf(w, r)) ==>
      w.store[Location(w, r)].Integral? && ParseInt(s) == Some(w.store[Location(w, r)].n)
  {
    if r.handle.None? then "" else Render(AdapterOf(w, r), w.store)
  }

  /**
    `operator==(const std::string&)`: whether `s` is the text of the bound value,
    that is, the bound string itself or the canonical decimal text of the bound
    number.
   */
  function EqualsText(w: World, r: Reflect, s: string): (eq: bool)
    requires Valid(w) && IsBound(w, r) && !IsFloating(TypeOf(w, r))
    ensures TypeOf(w, r) == String ==> (eq <==> w.store[Location(w, r)] == Text(s))
    ensures IsIntegral(TypeOf(w, r)) ==>
      w.store[Location(w, r)].Integral? && (eq <==> ParseInt(s) == Some(w.store[Location(w, r)].n))
  {
    var t := ToText(w, r);
    if IsIntegral(TypeOf(w, r)) then
      ParseIntIff(s, w.store[Location(w, r)].n);
      ParseIntIff(t, w.store[Location(w, r)].n);
      s == t
    else
      s == t
  }

  /** Two facades `operator<` can decide: both bound, and not one floating kind on both sides. */
  predicate Comparable(w: World, a: Reflect, b: Reflect) {
    && IsBound(w, a) && IsBound(w, b)
    && (AdapterOf(w, a).kind == AdapterOf(w, b).kind ==> !IsFloating(AdapterOf(w, a).kind))
  }

  /**
    `operator<`: same kind, compare the bound values through the adapter;
    different kinds, fall back on the order of the kinds' identity tokens.
   */
  function Less(w: World, a: Reflect, b: Reflect): (lt: bool)
    requires Valid(w) && Comparable(w, a, b)
    ensures TypeOf(w, a) != TypeOf(w, b) ==> (lt <==> Before(TypeOf(w, a), TypeOf(w, b)))
    ensures TypeOf(w, a) == TypeOf(w, b) == String ==> !lt
    ensures TypeOf(w, a) == TypeOf(w, b) && IsIntegral(TypeOf(w, a)) ==>
      (lt <==> Read(w, a, TypeOf(w, a)).n < Read(w, b, TypeOf(w, b)).n)
  {
    if TypeOf(w, a) == TypeOf(w, b) then Precedes(AdapterOf(w, a), AdapterOf(w, b), w.store)
    else Before(TypeOf(w, a), TypeOf(w, b))
  }
}

=== FILE: kinds.dfy ===
/**
  The fixed set of kinds a `Reflect` can be bound to, the values a caller's
  variable of each kind can hold, and the identity tokens (`type()`) with the
  fallback order on them (`type_info::before`).

  Native widths follow an LP64 platform: `long` is 64 bits wide and `char` is a
  signed 8-bit type. `bool` is held as 0 or 1, the value `std::to_string` and
  the built-in `<` see once it is promoted to `int`.
 */
module Kinds {

  /** One kind per adapter the builder macro generates, plus the string adapter. */
  datatype Kind =
    | UInt8 | UInt16 | UInt32 | UInt64
    | Int8 | Int16 | Int32 | Int64
    | Float | Double | Long | Bool | Char
    | String

  predicate IsFloating(k: Kind) {
    k == Float || k == Double
  }

  predicate IsIntegral(k: Kind) {
    !IsFloating(k) && k != String
  }

  /** Smallest value of an integral kind. */
  function MinValue(k: Kind): int
    requires IsIntegral(k)
  {
    match k
    case Int8 => -0x80
    case Int16 => -0x8000
    case Int32 => -0x8000_0000
    case Int64 => -0x8000_0000_0000_0000
    case Long => -0x8000_0000_0000_0000
    case Char => -0x80
    case _ => 0
  }

  /** Largest value of an integral kind. */
  function MaxValue(k: Kind): int
    requires IsIntegral(k)
  {
    match k
    case UInt8 => 0xFF
    case UInt16 => 0xFFFF
    case UInt32 => 0xFFFF_FFFF
    case UInt64 => 0xFFFF_FFFF_FFFF_FFFF
    case Int8 => 0x7F
    case Int16 => 0x7FFF
    case Int32 => 0x7FFF_FFFF
    case Int64 => 0x7FFF_FFFF_FFFF_FFFF
    case Long => 0x7FFF_FFFF_FFFF_FFFF
    case Bool => 1
    case Char => 0x7F
    case _ => 0
  }

  /** Number of bits in the representation of a floating kind. */
  function FloatWidth(k: Kind): nat
    requires IsFloating(k)
  {
    if k == Float then 32 else 64
  }

  function Pow2(e: nat): (p: nat)
    ensures p >= 1
  {
    if e == 0 then 1 else 2 * Pow2(e - 1)
  }

  /**
    The contents of one caller-owned variable, tagged with its kind. A floating
    value is carried as its raw bit pattern: nothing in the model reads it as a
    number.
   */
  datatype Value =
    | Integral(kind: Kind, n: int)
    | Floating(kind: Kind, bits: nat)
    | Text(s: string)

  function KindOf(v: Value): Kind {
    match v
    case Integral(k, _) => k
    case Floating(k, _) => k
    case Text(_) => String
  }

  /** The value is one a variable of its kind can actually hold. */
  predicate WellFormed(v: Value) {
    match v
    case Integral(k, n) => IsIntegral(k) && MinValue(k) <= n <= MaxValue(k)
    case Floating(k, b) => IsFloating(k) && b < Pow2(FloatWidth(k))
    case Text(_) => true
  }

  /**
    Position of a kind in the fallback order. The order `type_info::before`
    really uses is implementation-defined; any fixed injective ranking gives
    the same guarantees, and this one is the declaration order of the adapters.
   */
  function Rank(k: Kind): nat {
    match k
    case UInt8 => 0
    case UInt16 => 1
    case UInt32 => 2
    case UInt64 => 3
    case Int8 => 4
    case Int16 => 5
    case Int32 => 6
    case Int64 => 7
    case Float => 8
    case Double => 9
    case Long => 10
    case Bool => 11
    case Char => 12
    case String => 13
  }

  /** `type_info::before` on the identity tokens of two kinds. */
  predicate Before(a: Kind, b: Kind) {
    Rank(a) < Rank(b)
  }

  /** The fallback order is a strict total order on kinds. */
  lemma BeforeIsStrictTotal(a: Kind, b: Kind, c: Kind)
    ensures !Before(a, a)
    ensures Before(a, b) ==> !Before(b, a)
    ensures Before(a, b) && Before(b, c) ==> Before(a, c)
    ensures a != b <==> Before(a, b) || Before(b, a)
  {
  }
}

=== FILE: ordering.dfy ===
/**
  The facade's `operator<` is the lexicographic order on (kind rank, value),
  where the bound value takes part only for kinds whose adapter compares values
  (the string adapter does not). Hence it is a strict weak order, fit to key an
  ordered container holding facades of mixed kinds.
 */
module Ordering {
  import opened Wrappers
  import opened Kinds
  import opened Facade

  /** The key a facade sorts by: its kind's rank, then its value where it has one. */
  datatype SortKey = SortKey(rank: nat, value: Option<int>)

  /** Lexicographic order on sort keys; two absent values are never ordered. */
  predicate KeyLess(x: SortKey, y: SortKey) {
    x.rank < y.rank || (x.rank == y.rank && x.value.Some? && y.value.Some? && x.value.value < y.value.value)
  }

  function KeyOf(w: World, r: Reflect): SortKey
    requires Valid(w) && IsBound(w, r)
  {
    var v := Read(w, r, TypeOf(w, r));
    SortKey(Rank(TypeOf(w, r)), if v.Integral? then Some(v.n) else None)
  }

  /** A facade `operator<` can compare with itself: bound, and not of a floating kind. */
  predicate Orderable(w: World, r: Reflect) {
    IsBound(w, r) && !IsFloating(AdapterOf(w, r).kind)
  }

  /** `operator<` agrees with the lexicographic order on sort keys. */
  lemma LessIsLexicographic(w: World, a: Reflect, b: Reflect)
    requires Valid(w) && Comparable(w, a, b)
    ensures Less(w, a, b) <==> KeyLess(KeyOf(w, a), KeyOf(w, b))
  {
  }

  /** No facade is below itself. */
  lemma LessIrreflexive(w: World, a: Reflect)
    requires Valid(w) && Orderable(w, a)
    ensures !Less(w, a, a)
  {
  }

  /** Of two facades at most one is below the other. */
  lemma LessAsymmetric(w: World, a: Reflect, b: Reflect)
    requires Valid(w) && Comparable(w, a, b)
    ensures Less(w, a, b) ==> !Less(w, b, a)
  {
  }

  /**
    Being below is transitive, for any three facades `operator<` can decide
    pairwise: mixed kinds, floating kinds included, as long as no two of them
    share one floating kind.
   */
  lemma LessTransitive(w: World, a: Reflect, b: Reflect, c: Reflect)
    requires Valid(w) && Comparable(w, a, b) && Comparable(w, b, c) && Comparable(w, a, c)
    ensures Less(w, a, b) && Less(w, b, c) ==> Less(w, a, c)
  {
  }

  /** Neither below the other. */
  predicate Equivalent(w: World, a: Reflect, b: Reflect)
    requires Valid(w) && Comparable(w, a, b)
  {
    !Less(w, a, b) && !Less(w, b, a)
  }

  /**
    Incomparability is transitive too, which with the lemmas above makes `<` a
    strict weak order on every set of pairwise comparable facades; the classes
    are the string facades and, for each integral kind, the facades holding one
    value, while a floating facade is equivalent to no facade of another kind.
   */
  lemma EquivalentTransitive(w: World, a: Reflect, b: Reflect, c: Reflect)
    requires Valid(w) && Comparable(w, a, b) && Comparable(w, b, c) && Comparable(w, a, c)
    ensures Equivalent(w, a, b) <==> KeyOf(w, a) == KeyOf(w, b)
    ensures Equivalent(w, a, b) && Equivalent(w, b, c) ==> Equivalent(w, a, c)
  {
  }
}

=== FILE: scenarios.dfy ===
/**
  The repository's own usage scenarios (src/test.cpp), stated as lemmas about
  concrete variables, plus one example of promoted `bool`/`char` text.
 */
module Scenarios {
  import opened Kinds
  import opened Facade

  /**
    A `uint8_t` holding 123, bound at address 0: the facade renders "123";
    `r = uint8_tTest2` (a variable holding 234) changes the bound variable itself
    and the text to "234"; the caller then setting the variable to 111 shows as
    "111" through the facade.
   */
  lemma Uint8Scenario()
    ensures var w0 := World(map[0 := Integral(UInt8, 123)], map[], 0);
      var (w1, r) := Construct(w0, 0);
      var w2 := Assign(w1, r, Integral(UInt8, 234)).0;
      var w3 := ExternalWrite(w2, 0, Integral(UInt8, 111));
      && ToText(w1, r) == "123"
      && Read(w1, r, UInt8) == Integral(UInt8, 123)
      && w2.store[0] == Integral(UInt8, 234) && ToText(w2, r) == "234"
      && ToText(w3, r) == "111" && Read(w3, r, UInt8) == Integral(UInt8, 111)
  {
  }

  /**
    A string "value" renders verbatim, equals "value" and nothing else, and
    `r = stringTest2` replaces the bound text with a copy of "valueChanged".
   */
  lemma StringScenario()
    ensures var w0 := World(map[0 := Text("value"), 1 := Text("valueChanged")], map[], 0);
      var (w1, r) := Construct(w0, 0);
      var w2 := Assign(w1, r, Text("valueChanged")).0;
      && ToText(w1, r) == "value"
      && EqualsText(w1, r, "value") && !EqualsText(w1, r, "valueChanged")
      && ToText(w2, r) == "valueChanged"
      && w2.store[0] == Text("valueChanged") && w2.store[1] == Text("valueChanged")
  {
  }

  /**
    A facade on a `uint8_t` reports the `uint8_t` token and not the `uint16_t`
    one, and facades on 1 and 100 order as 1 < 100 and not the other way.
   */
  lemma TypeAndOrderScenario()
    ensures var w0 := World(map[0 := Integral(UInt8, 1), 1 := Integral(UInt8, 100)], map[], 0);
      var (w1, small) := Construct(w0, 0);
      var (w2, big) := Construct(w1, 1);
      && IsBound(w2, small) && IsBound(w2, big)
      && TypeOf(w2, small) == UInt8 && TypeOf(w2, small) != UInt16
      && Less(w2, small, big) && !Less(w2, big, small)
  {
  }

  /**
    `bool` and `char` reach `std::to_string` promoted to `int`: `true` renders
    as "1" and the character 'A' as "65", not as "true" or "A".
   */
  lemma PromotedKindsScenario()
    ensures var w0 := World(map[0 := Integral(Bool, 1), 1 := Integral(Char, 65)], map[], 0);
      var (w1, flag) := Construct(w0, 0);
      var (w2, letter) := Construct(w1, 1);
      && IsBound(w2, flag) && IsBound(w2, letter)
      && ToText(w2, flag) == "1" && ToText(w2, letter) == "65"
      && !EqualsText(w2, flag, "true") && !EqualsText(w2, letter, "A")
  {
  }
}

=== FILE: wrappers.dfy ===
/** The optional value used for facades that may hold no adapter and for parse results. */
module Wrappers {

  datatype Option<+T> = None | Some(value: T)
}
